=== FILE: README.md ===
# Character and magic-item inventory, modelled in Dafny

The service keeps two tables. One holds characters (`personagens`: name, adventurer name, class, level, base
strength and base defense). The other holds magic items (`itens_magicos`: name, type Arma/Armadura/Amuleto,
strength, defense and an optional owning character). It checks the create payloads with pydantic request
models. It links items to characters under two rules: an item belongs to at most one character, and a
character holds at most one amulet.

This project models:

- **Request validation** (`Validation`): the `ItemMagicoBase` and `PersonagemBase` request models, with
  pydantic v1's evaluation rules.
  - Fields are checked in declaration order.
  - For each field, its `conint` bounds run first (lower bound, then upper), then its validators in order.
  - The first failure ends that field, and a failed field is missing from `values`. A later validator that
    reads it is therefore skipped.
  - An omitted field gets its default without running any validator.
  - Errors of all fields are reported together, in field order.
- **Entities** (`Entities`): the class and item-type enumerations with their wire names, the two row
  types, and the table CHECK constraints.
- **The inventory** (`Inventory`): the database is abstracted as two maps from id to row.
  - The derived properties are `forca_total`, `defesa_total` and `amuleto`.
  - Every route handler is a pure function from the store to a new store plus a response, or to an
    error kind with its HTTP status.
- **Properties** (`InventoryLemmas`):
  - Every route keeps the store invariant: rows obey the rules, owners exist, and each character has at
    most one amulet.
  - Attach and detach undo each other.
  - Totals move by exactly the bonus of the item that changed hands.
  - The amulet a character reports is its only one.

`Ids` holds the storage-order helpers. A table is scanned in ascending id order, which is the order the
model gives to `first()` and to the `itens_magicos` relationship. A new row gets one more than the largest
id in use, or 1 for an empty table. `Results` holds `Option` and `Result`.

Where the code is more specific than the service's documented rules, the model follows the code:

- Names may be any string. The request models declare `nome: str` and do not require it to be non-empty.
- Validation reports a list of per-field errors, not a single error kind.
- `amuleto` and the get-amulet route return the *first* owned amulet. Uniqueness is a theorem about valid
  stores (`AmuletIsUnique`), not part of the definition.

## Model

| member | source | states |
|---|---|---|
| Entities.ParseKind | models.py:13-16 | An item-type name is accepted exactly when some member has that value ("Arma", "Armadura", "Amuleto"), and it yields that member |
| Entities.ParseClass | models.py:6-11 | A class name is accepted exactly when some member has that value, and it yields that member |
| Entities.ParseNamesRoundTrip | models.py:6-16 | Looking up a member's wire name gives back that member |
| Entities.CharacterTableChecks | models.py:32-37 | Definition of the characters table CHECKs; `Validation.ValidateCharacter` proves every accepted character meets them |
| Entities.ItemTableChecks | models.py:80-91 | Definition of the items table CHECKs; `Validation.ValidateItem` accepts exactly the payloads whose item meets them, and `Validation.AsWrittenAcceptsItemWithoutAttribute` shows the request model as written does not |
| Validation.ValidateItem | main.py:30-52 | Corrected item request model: a payload is accepted iff it has a name and a known type, and the item it describes (omitted strength and defense taken as 0) meets every CHECK constraint of the items table; the accepted item copies the payload and is unowned; a rejection lists at least one error |
| Validation.ValidateItemAsWritten | main.py:30-52 | The item request model as written: the same conditions, except that the at-least-one-attribute rule is waived when defense is omitted |
| Validation.AsWrittenAcceptsItemWithoutAttribute | main.py:48-52 | An Amuleto sent without strength and defense passes the request model as written, yet has no attribute above 0 and so breaks the items table; the corrected model rejects it with the no-attribute error |
| Validation.ItemErrorsInFieldOrder | main.py:30-52 | Item errors name each field at most once, in declaration order (name, type, strength, defense) |
| Validation.RangeBeforeTypeRule | main.py:33-40 | A strength outside [0,10] is reported as below minimum or above maximum, never as an Armadura violation: bounds run before the custom validator |
| Validation.DefenseRangeBeforeTypeRules | main.py:34-52 | A defense outside [0,10] is reported as below minimum or above maximum, never as an Arma violation or a missing attribute: bounds run before both validators |
| Validation.AsWrittenAgreesWhenDefenseSent | main.py:34-52 | When defense is sent, the request model as written and the corrected one give the same answer: they differ only on an omitted defense |
| Validation.FailedStrengthSkipsAttributeCheck | main.py:36-52 | When strength fails its own chain, the at-least-one-attribute check on defense does not fire |
| Validation.UnknownKindSkipsTypeRules | main.py:31-46 | When the type is missing or not a member, neither the Armadura nor the Arma rule fires |
| Validation.ItemFieldProblemsReported | main.py:31-32 | A name or type left out is reported missing on that field; a type that is not a member is reported as not a member |
| Validation.ArmourStrengthReported | main.py:33-40 | For every Armadura payload with strength in (0,10], the strength field is reported with the Armadura error |
| Validation.WeaponDefenseReported | main.py:42-46 | For every Arma payload with defense in (0,10], the defense field is reported with the Arma error |
| Validation.NoAttributeReported | main.py:48-52 | For every payload whose strength and defense are both 0 (sent or defaulted), the corrected model reports the defense field with the no-attribute error whatever the type; the model as written does so when defense is sent |
| Validation.StrengthCheck | main.py:33-40 | Definition of the strength field chain: omitted means 0 unvalidated, then bounds, then the Armadura rule; which error each step reports, for every input, is stated by `Validation.RangeBeforeTypeRule` (out of range) and `Validation.ArmourStrengthReported` (Armadura with strength in (0,10]) |
| Validation.DefenseCheck | main.py:34-52 | Definition of the defense field chain, with the omitted-defense switch between as written and corrected; which error each step reports, for every input, is stated by `Validation.DefenseRangeBeforeTypeRules` (out of range), `Validation.WeaponDefenseReported` (Arma with defense in (0,10]), `Validation.NoAttributeReported` (both 0) and `Validation.FailedStrengthSkipsAttributeCheck` |
| Validation.ArmourWithoutBonusLacksAttribute | main.py:36-52 | Armadura with strength 0 and defense 0 passes both type rules and fails only with the no-attribute error on defense |
| Validation.WeaponExamples | main.py:42-46 | Arma with defense 3 fails the Arma rule; Arma with strength 5 and defense 0 is accepted |
| Validation.AcceptedItemMeetsTable | models.py:82-89 | Every item the corrected request model accepts satisfies the items table CHECK constraints |
| Validation.ValidateCharacter | main.py:69-81 | A payload is accepted iff all required fields are present, the class is known, level (default 1) is at least 1, both base values lie in [0,10] and their sum is at most 10; accepted characters meet the characters table constraints; a rejection lists at least one error |
| Validation.LevelCheck | main.py:73 | Definition of `level: conint(ge=1) = 1`; `Validation.ValidateCharacter` states an omitted level becomes 1, and `Validation.LevelBelowMinimumReported` that a sent level below 1 is reported below minimum |
| Validation.BaseDefenseCheck | main.py:75-81 | Definition of the base-defense chain: required, bounds, then the budget rule only when base strength passed; its errors are stated for every input by `Validation.CharacterFieldProblemsReported` (missing), `Validation.BaseDefenseRangeReported` (out of range, never budget), `Validation.BudgetReported` (in range, sum above 10) and `Validation.FailedStrengthSkipsBudget` |
| Validation.CharacterErrorsInFieldOrder | main.py:69-81 | Character errors name each field at most once, in declaration order |
| Validation.BudgetExamples | main.py:77-81 | Base 6/4 is accepted; 7/4 is rejected with only the budget error on base defense |
| Validation.FailedStrengthSkipsBudget | main.py:74-81 | When base strength is missing or out of range, the budget check does not fire |
| Validation.CharacterFieldProblemsReported | main.py:70-75 | Each required field left out (name, adventurer name, class, base strength, base defense) is reported missing on that field; a class that is not a member is reported as not a member |
| Validation.LevelBelowMinimumReported | main.py:73 | A level sent below 1 is reported below minimum on the level field |
| Validation.BaseStrengthRangeReported | main.py:74 | A base strength outside [0,10] is reported below minimum or above maximum on that field |
| Validation.BaseDefenseRangeReported | main.py:75-81 | A base defense outside [0,10] is reported below minimum or above maximum on that field, and never as a budget excess |
| Validation.BudgetReported | main.py:77-81 | For every pair of in-range base values summing above 10, base defense is reported with the budget error |
| Inventory.ItemsOf | models.py:30 | A character's item list holds exactly the items it owns, in ascending id order |
| Inventory.Total | models.py:39-47 | Definition of `forca_total` / `defesa_total`: base plus the bonuses of owned items; stated by `InventoryLemmas.TotalAtLeastBase`, `InventoryLemmas.TotalAfterAssign`, `InventoryLemmas.AttachAddsBonus` and `InventoryLemmas.DetachRemovesBonus` |
| Inventory.AmuletOf | models.py:49-53 | Definition of `amuleto` as the first owned Amuleto; stated by `Inventory.AmuletOfAbsent`, `Inventory.AmuletOfOwned` and `InventoryLemmas.AmuletIsUnique` |
| Inventory.AmuletOfAbsent | models.py:50-53 | `amuleto` is absent exactly when the character owns no Amuleto |
| Inventory.AmuletOfOwned | models.py:50-53 | When present, `amuleto` is an Amuleto the character owns |
| Inventory.Valid | models.py:32-37 | Definition of the store invariant: characters obey the request-model rules, items obey the items table CHECKs, owners exist, at most one amulet per character; every `InventoryLemmas.*KeepsValid` lemma shows a route preserves it |
| Inventory.StatusCode | main.py:175-423 | Every error is a client error; 422 exactly for a rejected payload, 400 exactly for an item owned by another character or a second amulet, 404 exactly for the four not-found kinds (character, item, not in inventory, no amulet) |
| Inventory.ViewShows | main.py:92-96 | A character response shows the character row, both totals, and every owned item once in ascending id order (what `Inventory.Shows` requires) |
| Inventory.CreateCharacter | main.py:126-141 | Fails with the validation errors exactly when the request model rejects; otherwise adds the validated character under an id above every existing one, leaving the items unchanged, and answers with a response that shows it |
| Inventory.GetCharacter | main.py:166-176 | Not-found exactly when the id is absent; otherwise answers with that character row, its totals `forca_total` and `defesa_total`, and every item it owns once in ascending id order |
| Inventory.RenameAdventurer | main.py:193-200 | Not-found exactly when the id is absent; otherwise only that character's adventurer name changes, and the response shows the renamed character with its totals and items |
| Inventory.DeleteCharacter | main.py:216-225 | Not-found exactly when the id is absent; otherwise removes only that character, keeps every item, and clears the owner of exactly the items it owned |
| Inventory.CreateItem | main.py:244-254 | Fails with the validation errors exactly when the corrected request model rejects; otherwise adds the validated item, unowned, under an id above every existing one |
| Inventory.GetItem | main.py:279-288 | Not-found exactly when the id is absent; otherwise answers with that row |
| Inventory.Attach | main.py:305-338 | Errors in order: missing character, missing item, owned by another character, another amulet already held (only for an Amuleto); on success the only change is the item's owner becoming the character |
| Inventory.AttachResponse | main.py:334-338 | Attach answers with the character after the change: its row, the totals of the new store, and its items, which are exactly the ones it held before plus the attached item, each once, in ascending id order |
| Inventory.ListItems | main.py:354-358 | Not-found exactly when the character is absent; otherwise lists every owned item once, nothing else, in ascending id order |
| Inventory.Detach | main.py:375-393 | Not-found for a missing character; not-in-inventory exactly when the item is not owned by that character (missing, unowned or owned by someone else); on success only that item's owner is cleared |
| Inventory.GetAmulet | main.py:409-425 | Not-found for a missing character; no-amulet exactly when it owns no Amuleto; otherwise an Amuleto it owns |
| InventoryLemmas.AmuletIsUnique | models.py:50-53 | In a valid store `amuleto` is the character's only amulet |
| InventoryLemmas.GetAmuletReturnsTheAmulet | main.py:409-425 | In a valid store the get-amulet route returns `amuleto`, the character's only amulet |
| InventoryLemmas.AttachConflictMeansOtherAmulet | main.py:318-332 | In a valid store, attach reports an amulet conflict exactly when the character already owns a different Amuleto |
| InventoryLemmas.CreateCharacterKeepsValid | main.py:126-141 | Creating a character keeps the invariant; the new character owns nothing and its totals equal its base values |
| InventoryLemmas.CreateItemKeepsValid | main.py:244-254 | Creating an item keeps the invariant |
| InventoryLemmas.RenameKeepsValid | main.py:193-200 | Renaming keeps the invariant |
| InventoryLemmas.DeleteKeepsValid | main.py:216-225 | Deleting a character keeps the invariant, so no item refers to it afterwards, and every item is still retrievable |
| InventoryLemmas.GiveKeepsValid | main.py:313-334 | Giving a free or already-held item to an existing character with no other amulet keeps the invariant |
| InventoryLemmas.AttachKeepsValid | main.py:305-338 | A successful attach keeps the invariant, in particular at most one amulet per character |
| InventoryLemmas.DetachKeepsValid | main.py:375-393 | A successful detach keeps the invariant |
| InventoryLemmas.CreateThenGetCharacter | main.py:126-176 | A created character was absent before, reads back by id exactly as the creation response, and every earlier character's GET response (row, totals and items) is identical to before |
| InventoryLemmas.CreateThenGetItem | main.py:244-288 | A created item was absent before, reads back by id exactly as the creation response, and every earlier item reads back unchanged |
| InventoryLemmas.RenameThenGet | main.py:166-200 | After a rename the character reads back with the new adventurer name, its own name, the same totals and the same items |
| InventoryLemmas.DeleteThenGet | main.py:209-225 | After a delete, get, list and get-amulet on that character answer not-found, and so do attach and detach for every item id; its former items read back unowned |
| InventoryLemmas.ReattachChangesNothing | main.py:313-334 | Re-attaching an item to its current owner succeeds and leaves the store unchanged, amulets included |
| InventoryLemmas.AttachThenDetach | main.py:305-393 | Attaching a free item and detaching it again restores the store |
| InventoryLemmas.AttachFreeItem | main.py:305-338 | A free item can always be attached to an existing character holding no amulet |
| InventoryLemmas.DetachThenAttach | main.py:305-393 | Detaching an item and attaching it back restores the store and never raises an amulet conflict |
| InventoryLemmas.AmuletSwap | main.py:318-332 | Attach amulet A; attaching amulet B conflicts; after detaching A, attaching B succeeds |
| InventoryLemmas.BonusSumNonNegative | models.py:40-47 | A sum of non-negative item bonuses is non-negative |
| InventoryLemmas.TotalAtLeastBase | models.py:40-47 | In a valid store total strength (defense) is at least base strength (defense) |
| InventoryLemmas.BonusSumOwnerChange | models.py:40-47 | Changing one item's owner changes a character's bonus sum by that item's bonus, gained or lost, and nothing else |
| InventoryLemmas.TotalAfterAssign | models.py:40-47 | After one owner change, every character's total differs by exactly the moved item's bonus or not at all |
| InventoryLemmas.AttachAddsBonus | models.py:40-47 | After attach, the receiver's total grows by the item's bonus unless it already held it; other totals are unchanged |
| InventoryLemmas.DetachRemovesBonus | models.py:40-47 | After detach, the former owner's total drops by the item's bonus; other totals are unchanged |
| InventoryLemmas.AttachResponseTotals | main.py:334-338 | The character attach answers with has the old totals plus the item's bonuses when the item is newly held |

## Findings

| source | as written | input that shows it | evidently intended | confidence | as-written member | corrected member |
|---|---|---|---|---|---|---|
| main.py:48-52 | `validar_item_com_atributo` is a validator of `defesa`. In pydantic v1 it does not run when `defesa` is omitted, because the default 0 goes into `values` unvalidated | `{"nome": "x", "tipo": "Amuleto"}`: accepted as strength 0, defense 0 (also `{"nome": "x", "tipo": "Arma", "forca": 0}`) | rejected with the no-attribute error, like an explicit defense of 0; the items table demands `forca > 0 OR defesa > 0` (models.py:85) | not executed; rests on pydantic v1 not validating defaulted fields unless `always=True` | Validation.ValidateItemAsWritten, Validation.AsWrittenAcceptsItemWithoutAttribute | Validation.ValidateItem |

The store model (`Inventory.CreateItem`) uses the corrected `Validation.ValidateItem`, so every stored item
meets the table constraints.

## Left out

- Inventory.CreateItem: uses the corrected validator, so an item sent without defense and with no
  attribute above 0 (`{"nome": "x", "tipo": "Amuleto"}`) gets a 422 no-attribute error and the store is
  unchanged. The source accepts the payload and commits an item with strength 0 and defense 0. It then
  answers with a server error either way. An engine that enforces CHECK rejects the insert on
  `check_item_tem_atributo` (models.py:85). Otherwise the row is stored, and validating the response
  against `ItemMagicoResposta` re-runs `validar_item_com_atributo` on the now present defense, which fails.
- HTTP routing, the database session lifecycle (main.py:15-20), and commit/refresh. Requests are atomic and
  sequential, and errors are kinds with an HTTP status (`Inventory.StatusCode`), not messages.
- The concurrent race between the amulet check and the commit of two simultaneous attach requests. The
  model has no concurrency.
- The paginated list routes `listar_personagens` and `listar_itens_magicos` (main.py:150-157,
  main.py:263-270). They are plain `offset/limit` queries with no rule to state.
- `to_dict` (models.py:55-65, models.py:94-101). No route uses it.
- Pydantic's type coercion: numeric strings, booleans, JSON null, and JSON floats. `int(v)` truncates a
  float toward zero before the bounds run, so `-0.5` becomes 0 and `10.9` becomes 10, and both pass. The
  numeric fields of the two create payloads are modelled as integers that are either sent or omitted.
- Inventory.Attach: takes the request body `item_id` as an already parsed integer. When a body is present
  but malformed (`{}`, `{"item_id": "x"}`), the source answers 422 from `AdicionarItemPersonagem`
  (main.py:102-103, main.py:299) before the handler runs, so before any character-not-found check. The
  model has no such answer.
- Inventory.RenameAdventurer: takes `nome_aventureiro` as an already parsed string. A body without it
  fails `AtualizarNomeAventureiro` (main.py:88-89, main.py:187) with 422 before the character lookup. The
  model has no such answer.
- Requests whose body is missing. `dados` then defaults to `None`, and `dados.item_id` /
  `dados.nome_aventureiro` fail with a server error after the character lookup. The model always takes a
  body.
- Id generation and scan order. database.py is not part of this model. Ids are modelled as one more than
  the largest id in use, and storage order as ascending id.
- How the ORM stores the item type. `Enum(TipoItem)` stores member names ("ARMA", "ARMADURA", "AMULETO"),
  so the CHECKs at models.py:87-89, which compare with "Arma" and "Armadura", never reject anything in the
  source's database. The model states them by their meaning over the enumeration. The type clauses of
  `Inventory.Valid` hold because the request validators enforce them at creation, not because the database
  does.
- src/main/java/com/prova/demo/entities/Personagem.java. It is a bean with only getters and setters, from
  a different stack.

=== FILE: entities.dfy ===
/**
 * The two persisted entities of the game inventory service, characters
 * (personagens) and magic items (itens mágicos), with the closed
 * enumerations they use and the CHECK constraints of their tables.
 */
module Entities {
  import opened Results

  /** Character class, stored and sent as its Portuguese name. */
  datatype CharacterClass = Warrior | Mage | Archer | Rogue | Bard

  /** Magic item type: Arma, Armadura or Amuleto. */
  datatype ItemKind = Weapon | Armour | Amulet

  /** The wire name of a character class. */
  function ClassName(c: CharacterClass): string {
    match c
    case Warrior => "Guerreiro"
    case Mage => "Mago"
    case Archer => "Arqueiro"
    case Rogue => "Ladino"
    case Bard => "Bardo"
  }

  /** The wire name of an item type. */
  function KindName(k: ItemKind): string {
    match k
    case Weapon => "Arma"
    case Armour => "Armadura"
    case Amulet => "Amuleto"
  }

  /** Enum lookup by value: the class whose wire name is `s`, if any. */
  function ParseClass(s: string): (r: Option<CharacterClass>)
    ensures r.Some? ==> ClassName(r.value) == s
    ensures r.None? ==> forall c: CharacterClass :: ClassName(c) != s
  {
    if s == "Guerreiro" then Some(Warrior)
    else if s == "Mago" then Some(Mage)
    else if s == "Arqueiro" then Some(Archer)
    else if s == "Ladino" then Some(Rogue)
    else if s == "Bardo" then Some(Bard)
    else None
  }

  /** Enum lookup by value: the item type whose wire name is `s`, if any. */
  function ParseKind(s: string): (r: Option<ItemKind>)
    ensures r.Some? ==> KindName(r.value) == s
    ensures r.None? ==> forall k: ItemKind :: KindName(k) != s
  {
    if s == "Arma" then Some(Weapon)
    else if s == "Armadura" then Some(Armour)
    else if s == "Amuleto" then Some(Amulet)
    else None
  }

  /** Looking a wire name up gives back the member it names. */
  lemma ParseNamesRoundTrip(c: CharacterClass, k: ItemKind)
    ensures ParseClass(ClassName(c)) == Some(c)
    ensures ParseKind(KindName(k)) == Some(k)
  {
  }

  /** A row of the characters table. */
  datatype Character = Character(
    name: string,
    adventurerName: string,
    role: CharacterClass,
    level: int,
    baseStrength: int,
    baseDefense: int)

  /** A row of the magic items table; `owner` is the nullable character id. */
  datatype Item = Item(
    name: string,
    kind: ItemKind,
    strength: int,
    defense: int,
    owner: Option<int>)

  /** The CHECK constraints of the characters table. */
  predicate CharacterTableChecks(c: Character) {
    && c.baseStrength + c.baseDefense <= 10
    && c.baseStrength >= 0
    && c.baseDefense >= 0
  }

  /** The CHECK constraints of the magic items table. */
  predicate ItemTableChecks(i: Item) {
    && 0 <= i.strength <= 10
    && 0 <= i.defense <= 10
    && (i.strength > 0 || i.defense > 0)
    && (i.kind != Weapon || i.defense == 0)
    && (i.kind != Armour || i.strength == 0)
  }

  /** The two bonuses an item adds to its owner. */
  datatype Stat = Strength | Defense

  /** The bonus `i` grants for `stat`. */
  function Bonus(i: Item, stat: Stat): int {
    match stat
    case Strength => i.strength
    case Defense => i.defense
  }

  /** The base value of `stat` of a character. */
  function Base(c: Character, stat: Stat): int {
    match stat
    case Strength => c.baseStrength
    case Defense => c.baseDefense
  }
}

=== FILE: ids.dfy ===
/**
 * Integer identifiers as the store hands them out and scans them: a store
 * table is walked in ascending id order, and a new row gets one more than
 * the largest id in use (1 for an empty table).
 */
module Ids {

  /** Every element of `xs` is strictly smaller than the next one. */
  predicate Increasing(xs: seq<int>) {
    forall i, j :: 0 <= i < j < |xs| ==> xs[i] < xs[j]
  }

  /** A set that is not empty has an element. */
  lemma ElementExists(s: set<int>)
    requires s != {}
    ensures exists y :: y in s
  {
    if forall y :: y !in s {
      assert false;
    }
  }

  /** The head of an increasing list is below everything after it, and the rest is increasing. */
  lemma IncreasingTail(xs: seq<int>)
    requires Increasing(xs) && xs != []
    ensures Increasing(xs[1..])
    ensures forall y :: y in xs[1..] ==> xs[0] < y
  {
    forall y | y in xs[1..]
      ensures xs[0] < y
    {
      var k :| 0 <= k < |xs[1..]| && xs[1..][k] == y;
      assert xs[k + 1] == y;
    }
  }

  /** Putting a smaller element in front of an increasing list keeps it increasing. */
  lemma IncreasingCons(x: int, xs: seq<int>)
    requires Increasing(xs)
    requires forall y :: y in xs ==> x < y
    ensures Increasing([x] + xs)
  {
    var r := [x] + xs;
    forall a, b | 0 <= a < b < |r|
      ensures r[a] < r[b]
    {
      assert r[b] == xs[b - 1] && r[b] in xs;
      if a > 0 {
        assert r[a] == xs[a - 1];
      }
    }
  }

  /** A finite set holding `y` has a least element. */
  lemma {:induction false} MinimumExists(s: set<int>, y: int)
    requires y in s
    ensures exists m :: m in s && forall x :: x in s ==> m <= x
    decreases |s|
  {
    if s == {y} {
      assert forall x :: x in s ==> y <= x;
    } else {
      ElementExists(s - {y});
      var z :| z in s - {y};
      MinimumExists(s - {y}, z);
      var m :| m in s - {y} && forall x :: x in s - {y} ==> m <= x;
      var least := if y < m then y else m;
      forall x | x in s
        ensures least <= x
      {
        if x != y {
          assert x in s - {y};
        }
      }
    }
  }

  /** The least element of a non-empty set. */
  function Minimum(s: set<int>): (m: int)
    requires s != {}
    ensures m in s
    ensures forall x :: x in s ==> m <= x
  {
    ElementExists(s);
    var y :| y in s;
    MinimumExists(s, y);
    var m :| m in s && forall x :: x in s ==> m <= x;
    m
  }

  /** The elements of `s` listed once each, in ascending order. */
  function Ascending(s: set<int>): (r: seq<int>)
    ensures Increasing(r)
    ensures forall x :: x in r <==> x in s
    ensures |r| == |s|
    decreases |s|
  {
    if s == {} then []
    else
      var m := Minimum(s);
      var rest := Ascending(s - {m});
      assert forall x :: x in rest ==> m < x;
      [m] + rest
  }

  /** The id a new row receives: one more than the largest id in use, or 1. */
  function FreshId(used: set<int>): (r: int)
    ensures r !in used
    ensures forall x :: x in used ==> x < r
    ensures used == {} ==> r == 1
  {
    var xs := Ascending(used);
    if xs == [] then 1
    else
      assert forall x :: x in used ==> x <= xs[|xs| - 1] by {
        forall x | x in used
          ensures x <= xs[|xs| - 1]
        {
          var k :| 0 <= k < |xs| && xs[k] == x;
        }
      }
      xs[|xs| - 1] + 1
  }
}

=== FILE: inventory.dfy ===
/**
 * The inventory service over an in-memory store: the two tables as maps
 * from id to row, the derived character properties (total strength, total
 * defense, amulet) and the route handlers, each a pure function from the
 * store before the request to the store after it and the response, or to
 * the error the route reports. Requests are atomic and sequential.
 */
module Inventory {
  import opened Results
  import opened Ids
  import opened Entities
  import opened Validation

  /** The characters table and the magic items table, keyed by id. */
  datatype Store = Store(characters: map<int, Character>, items: map<int, Item>)

  /** What a route reports instead of a result (error kinds; message texts are not modelled). */
  datatype Error =
    | CharacterNotFound                // 404
    | ItemNotFound                     // 404
    | NotInInventory                   // 404: the item is not in this character's inventory
    | NoAmulet                         // 404: the character holds no amulet
    | AlreadyOwned                     // 400: the item belongs to another character
    | AmuletConflict                   // 400: the character already holds another amulet
    | Invalid(errors: seq<FieldError>) // 422: the payload failed its request model

  /** The HTTP status a route answers with for each error: a client error, 422 exactly for a rejected payload. */
  function StatusCode(e: Error): (r: int)
    ensures 400 <= r < 500
    ensures r == 422 <==> e.Invalid?
    ensures r == 400 <==> e in {AlreadyOwned, AmuletConflict}
    ensures r == 404 <==> e in {CharacterNotFound, ItemNotFound, NotInInventory, NoAmulet}
  {
    match e
    case CharacterNotFound => 404
    case ItemNotFound => 404
    case NotInInventory => 404
    case NoAmulet => 404
    case AlreadyOwned => 400
    case AmuletConflict => 400
    case Invalid(_) => 422
  }

  // ---------------------------------------------------------------------
  // State invariant
  // ---------------------------------------------------------------------

  /** Item `i` exists and belongs to character `c`. */
  predicate Owns(s: Store, c: int, i: int) {
    i in s.items && s.items[i].owner == Some(c)
  }

  /** Every item owner is an existing character. */
  predicate OwnersExist(s: Store) {
    forall i :: i in s.items && s.items[i].owner.Some? ==> s.items[i].owner.value in s.characters
  }

  /** No character owns two different amulets. */
  predicate AtMostOneAmulet(items: map<int, Item>) {
    forall i, j ::
      i in items && j in items && i != j && items[i].kind == Amulet && items[j].kind == Amulet && items[i].owner.Some?
      ==> items[i].owner != items[j].owner
  }

  /**
   * The invariant every request keeps: rows meet the request-model rules and
   * the table constraints, owners exist, and each character has at most one
   * amulet.
   */
  predicate Valid(s: Store) {
    && (forall c :: c in s.characters ==> CharacterRules(s.characters[c]))
    && (forall i :: i in s.items ==> ItemTableChecks(s.items[i]))
    && OwnersExist(s)
    && AtMostOneAmulet(s.items)
  }

  // ---------------------------------------------------------------------
  // Derived character properties
  // ---------------------------------------------------------------------

  /** The ids among `ids` whose item belongs to `c`, in the order of `ids`. */
  function OwnedAmong(items: map<int, Item>, ids: seq<int>, c: int): (r: seq<int>)
    requires forall k :: 0 <= k < |ids| ==> ids[k] in items
    ensures forall i :: i in r <==> i in ids && items[i].owner == Some(c)
    ensures forall k :: 0 <= k < |r| ==> r[k] in items
  {
    if ids == [] then []
    else
      var rest := OwnedAmong(items, ids[1..], c);
      assert forall i :: i in ids <==> i == ids[0] || i in ids[1..] by {
        assert ids == [ids[0]] + ids[1..];
      }
      if items[ids[0]].owner == Some(c) then [ids[0]] + rest else rest
  }

  /** Picking ids out of an ascending list keeps them ascending. */
  lemma {:induction false} OwnedAmongIncreasing(items: map<int, Item>, ids: seq<int>, c: int)
    requires forall k :: 0 <= k < |ids| ==> ids[k] in items
    requires Increasing(ids)
    ensures Increasing(OwnedAmong(items, ids, c))
    decreases |ids|
  {
    if ids != [] {
      IncreasingTail(ids);
      OwnedAmongIncreasing(items, ids[1..], c);
      var rest := OwnedAmong(items, ids[1..], c);
      if items[ids[0]].owner == Some(c) {
        IncreasingCons(ids[0], rest);
      }
    }
  }

  /** The ids of the items `c` owns in storage (ascending id) order: its `itens_magicos`. */
  function ItemsOf(s: Store, c: int): (r: seq<int>)
    ensures forall i :: i in r <==> Owns(s, c, i)
    ensures Increasing(r)
  {
    OwnedAmongIncreasing(s.items, Ascending(s.items.Keys), c);
    OwnedAmong(s.items, Ascending(s.items.Keys), c)
  }

  /** The sum of the `stat` bonuses of the items `ids`. */
  function BonusSum(items: map<int, Item>, ids: seq<int>, stat: Stat): int
    requires forall k :: 0 <= k < |ids| ==> ids[k] in items
  {
    if ids == [] then 0 else Bonus(items[ids[0]], stat) + BonusSum(items, ids[1..], stat)
  }

  /** `forca_total` / `defesa_total`: the base value plus the bonuses of every owned item. */
  function Total(s: Store, c: int, stat: Stat): int
    requires c in s.characters
  {
    Base(s.characters[c], stat) + BonusSum(s.items, ItemsOf(s, c), stat)
  }

  /** The first of `ids` whose item is an amulet. */
  function FirstAmulet(items: map<int, Item>, ids: seq<int>): (r: Option<int>)
    requires forall k :: 0 <= k < |ids| ==> ids[k] in items
    ensures r.None? <==> forall k :: 0 <= k < |ids| ==> items[ids[k]].kind != Amulet
    ensures r.Some? ==> exists k :: 0 <= k < |ids| && ids[k] == r.value && items[ids[k]].kind == Amulet
                                    && forall j :: 0 <= j < k ==> items[ids[j]].kind != Amulet
  {
    if ids == [] then None
    else if items[ids[0]].kind == Amulet then Some(ids[0])
    else
      var r := FirstAmulet(items, ids[1..]);
      if r.Some? then
        ghost var k :| 0 <= k < |ids[1..]| && ids[1..][k] == r.value && items[ids[1..][k]].kind == Amulet
                       && forall j :: 0 <= j < k ==> items[ids[1..][j]].kind != Amulet;
        assert ids[k + 1] == r.value && forall j :: 0 <= j < k + 1 ==> items[ids[j]].kind != Amulet by {
          forall j | 0 <= j < k + 1
            ensures items[ids[j]].kind != Amulet
          {
            if j > 0 {
              assert ids[j] == ids[1..][j - 1];
            }
          }
        }
        r
      else r
  }

  /** `amuleto`: the first owned item of type Amuleto, if any. */
  function AmuletOf(s: Store, c: int): Option<int> {
    FirstAmulet(s.items, ItemsOf(s, c))
  }

  /** `amuleto` is absent exactly when the character owns no item of type Amuleto. */
  lemma AmuletOfAbsent(s: Store, c: int)
    ensures AmuletOf(s, c).None? <==> forall i :: Owns(s, c, i) ==> s.items[i].kind != Amulet
  {
    var ids := ItemsOf(s, c);
    if AmuletOf(s, c).None? {
      forall i | Owns(s, c, i)
        ensures s.items[i].kind != Amulet
      {
        var k :| 0 <= k < |ids| && ids[k] == i;
      }
    } else {
      var k :| 0 <= k < |ids| && ids[k] == AmuletOf(s, c).value && s.items[ids[k]].kind == Amulet;
      assert Owns(s, c, ids[k]);
    }
  }

  /** When present, `amuleto` is an owned item of type Amuleto. */
  lemma AmuletOfOwned(s: Store, c: int)
    requires AmuletOf(s, c).Some?
    ensures Owns(s, c, AmuletOf(s, c).value) && s.items[AmuletOf(s, c).value].kind == Amulet
  {
    var ids := ItemsOf(s, c);
    var k :| 0 <= k < |ids| && ids[k] == AmuletOf(s, c).value && s.items[ids[k]].kind == Amulet;
  }

  // ---------------------------------------------------------------------
  // Responses
  // ---------------------------------------------------------------------

  /** An item as a response shows it: its id and its row. */
  datatype ItemView = ItemView(id: int, item: Item)

  /** A character as a response shows it, with its derived totals and its items. */
  datatype CharacterView = CharacterView(
    id: int,
    character: Character,
    totalStrength: int,
    totalDefense: int,
    items: seq<ItemView>)

  function Views(items: map<int, Item>, ids: seq<int>): (r: seq<ItemView>)
    requires forall k :: 0 <= k < |ids| ==> ids[k] in items
    ensures |r| == |ids|
    ensures forall k :: 0 <= k < |r| ==> r[k] == ItemView(ids[k], items[ids[k]])
  {
    seq(|ids|, k requires 0 <= k < |ids| => ItemView(ids[k], items[ids[k]]))
  }

  function View(s: Store, c: int): CharacterView
    requires c in s.characters
  {
    CharacterView(c, s.characters[c], Total(s, c, Strength), Total(s, c, Defense), Views(s.items, ItemsOf(s, c)))
  }

  /**
   * What a character response shows: the character's row, its two totals,
   * and every item it owns, once each, in ascending id order.
   */
  ghost predicate Shows(s: Store, c: int, v: CharacterView)
    requires c in s.characters
  {
    && v.id == c
    && v.character == s.characters[c]
    && v.totalStrength == Total(s, c, Strength)
    && v.totalDefense == Total(s, c, Defense)
    && (forall k :: 0 <= k < |v.items| ==> Owns(s, c, v.items[k].id) && v.items[k].item == s.items[v.items[k].id])
    && (forall i :: Owns(s, c, i) ==> exists k :: 0 <= k < |v.items| && v.items[k].id == i)
    && (forall k, l :: 0 <= k < l < |v.items| ==> v.items[k].id < v.items[l].id)
  }

  /** The response built for a character shows it. */
  lemma ViewShows(s: Store, c: int)
    requires c in s.characters
    ensures Shows(s, c, View(s, c))
  {
    OwnedViews(s, c);
  }

  /** `s'` differs from `s` only in the owner of item `i`, which is now `o`. */
  predicate OnlyOwnerChanged(s: Store, s': Store, i: int, o: Option<int>) {
    && i in s.items
    && s'.characters == s.characters
    && s'.items.Keys == s.items.Keys
    && s'.items[i] == s.items[i].(owner := o)
    && forall j :: j in s.items && j != i ==> s'.items[j] == s.items[j]
  }

  /** The store with the owner of item `i` set to `o`. */
  function Assign(s: Store, i: int, o: Option<int>): (s': Store)
    requires i in s.items
    ensures OnlyOwnerChanged(s, s', i, o)
  {
    s.(items := s.items[i := s.items[i].(owner := o)])
  }

  /** Setting an item's owner to the owner it already has changes nothing. */
  lemma AssignCurrentOwner(s: Store, i: int)
    requires i in s.items
    ensures Assign(s, i, s.items[i].owner) == s
  {
    assert s.items[i].(owner := s.items[i].owner) == s.items[i];
  }

  /** Only the last of two owner changes of one item matters. */
  lemma AssignTwice(s: Store, i: int, o: Option<int>, o': Option<int>)
    requires i in s.items
    ensures Assign(Assign(s, i, o), i, o') == Assign(s, i, o')
  {
  }

  // ---------------------------------------------------------------------
  // Character routes
  // ---------------------------------------------------------------------

  /** Create character: validate the payload, then insert it under a fresh id. */
  function CreateCharacter(s: Store, req: CharacterRequest): (r: Result<(Store, CharacterView), Error>)
    ensures r.Failure? <==> ValidateCharacter(req).Failure?
    ensures r.Failure? ==> r.error == Invalid(ValidateCharacter(req).error)
    ensures r.Success? ==>
      var (s', v) := r.value;
      && v.id !in s.characters
      && (forall c :: c in s.characters ==> c < v.id)
      && s'.characters == s.characters[v.id := ValidateCharacter(req).value]
      && s'.items == s.items
      && v.character == ValidateCharacter(req).value
      && Shows(s', v.id, v)
  {
    match ValidateCharacter(req)
    case Failure(errors) => Failure(Invalid(errors))
    case Success(character) =>
      var id := FreshId(s.characters.Keys);
      var s' := s.(characters := s.characters[id := character]);
      ViewShows(s', id);
      Success((s', View(s', id)))
  }

  /** Get character by id. */
  function GetCharacter(s: Store, c: int): (r: Result<CharacterView, Error>)
    ensures r.Failure? <==> c !in s.characters
    ensures r.Failure? ==> r.error == CharacterNotFound
    ensures r.Success? ==> Shows(s, c, r.value)
  {
    if c !in s.characters then Failure(CharacterNotFound)
    else
      ViewShows(s, c);
      Success(View(s, c))
  }

  /** Update adventurer name: the only field a character may change. */
  function RenameAdventurer(s: Store, c: int, name: string): (r: Result<(Store, CharacterView), Error>)
    ensures r.Failure? <==> c !in s.characters
    ensures r.Failure? ==> r.error == CharacterNotFound
    ensures r.Success? ==>
      var (s', v) := r.value;
      && s'.items == s.items
      && s'.characters.Keys == s.characters.Keys
      && s'.characters[c].adventurerName == name
      && s'.characters[c] == s.characters[c].(adventurerName := name)
      && (forall d :: d in s.characters && d != c ==> s'.characters[d] == s.characters[d])
      && Shows(s', c, v)
  {
    if c !in s.characters then Failure(CharacterNotFound)
    else
      var s' := s.(characters := s.characters[c := s.characters[c].(adventurerName := name)]);
      ViewShows(s', c);
      Success((s', View(s', c)))
  }

  /** Delete character: its items lose their owner and stay in the store; only the character goes. */
  function DeleteCharacter(s: Store, c: int): (r: Result<Store, Error>)
    ensures r.Failure? <==> c !in s.characters
    ensures r.Failure? ==> r.error == CharacterNotFound
    ensures r.Success? ==>
      var s' := r.value;
      && s'.characters == s.characters - {c}
      && s'.items.Keys == s.items.Keys
      && (forall i :: i in s.items ==> !Owns(s', c, i))
      && (forall i :: Owns(s, c, i) ==> s'.items[i] == s.items[i].(owner := None))
      && (forall i :: i in s.items && !Owns(s, c, i) ==> s'.items[i] == s.items[i])
  {
    if c !in s.characters then Failure(CharacterNotFound)
    else
      var items := map i | i in s.items :: if s.items[i].owner == Some(c) then s.items[i].(owner := None) else s.items[i];
      Success(Store(s.characters - {c}, items))
  }

  // ---------------------------------------------------------------------
  // Item routes
  // ---------------------------------------------------------------------

  /** Create item: validate the payload, then insert it unowned under a fresh id. */
  function CreateItem(s: Store, req: ItemRequest): (r: Result<(Store, ItemView), Error>)
    ensures r.Failure? <==> ValidateItem(req).Failure?
    ensures r.Failure? ==> r.error == Invalid(ValidateItem(req).error)
    ensures r.Success? ==>
      var (s', v) := r.value;
      && v.id !in s.items
      && (forall i :: i in s.items ==> i < v.id)
      && v.item == ValidateItem(req).value
      && v.item.owner.None?
      && s'.items == s.items[v.id := v.item]
      && s'.characters == s.characters
  {
    match ValidateItem(req)
    case Failure(errors) => Failure(Invalid(errors))
    case Success(item) =>
      var id := FreshId(s.items.Keys);
      Success((s.(items := s.items[id := item]), ItemView(id, item)))
  }

  /** Get item by id. */
  function GetItem(s: Store, i: int): (r: Result<ItemView, Error>)
    ensures r.Failure? <==> i !in s.items
    ensures r.Failure? ==> r.error == ItemNotFound
    ensures r.Success? ==> r.value == ItemView(i, s.items[i])
  {
    if i !in s.items then Failure(ItemNotFound) else Success(ItemView(i, s.items[i]))
  }

  /**
   * Attach item `i` to character `c`. The checks run in this order:
   * character exists, item exists, item not owned by another character,
   * and for an amulet, the character's amulet (if any) is this one.
   */
  function Attach(s: Store, c: int, i: int): (r: Result<(Store, CharacterView), Error>)
    ensures r.Failure? ==> r.error in {CharacterNotFound, ItemNotFound, AlreadyOwned, AmuletConflict}
    ensures r == Failure(CharacterNotFound) <==> c !in s.characters
    ensures r == Failure(ItemNotFound) <==> c in s.characters && i !in s.items
    ensures r == Failure(AlreadyOwned) <==>
      c in s.characters && i in s.items && s.items[i].owner.Some? && s.items[i].owner != Some(c)
    ensures r == Failure(AmuletConflict) <==>
      && c in s.characters && i in s.items && s.items[i].owner in {None, Some(c)}
      && s.items[i].kind == Amulet && AmuletOf(s, c).Some? && AmuletOf(s, c) != Some(i)
    ensures r.Success? ==> r.value.0 == Assign(s, i, Some(c))
    ensures r.Success? ==> r.value.1.id == c && r.value.1.character == s.characters[c]
  {
    if c !in s.characters then Failure(CharacterNotFound)
    else if i !in s.items then Failure(ItemNotFound)
    else
      var item := s.items[i];
      if item.owner.Some? && item.owner.value != c then Failure(AlreadyOwned)
      else if item.kind == Amulet && AmuletOf(s, c).Some? && AmuletOf(s, c).value != i then Failure(AmuletConflict)
      else
        var s' := Assign(s, i, Some(c));
        Success((s', View(s', c)))
  }

  /** The item rows `c` owns, in storage order, with every owned item listed once. */
  lemma OwnedViews(s: Store, c: int)
    ensures var v := Views(s.items, ItemsOf(s, c));
      && (forall k :: 0 <= k < |v| ==> Owns(s, c, v[k].id) && v[k].item == s.items[v[k].id])
      && (forall i :: Owns(s, c, i) ==> exists k :: 0 <= k < |v| && v[k].id == i)
      && (forall k, l :: 0 <= k < l < |v| ==> v[k].id < v[l].id)
  {
    var ids := ItemsOf(s, c);
    ViewsOfIds(s.items, ids);
    forall k | 0 <= k < |ids|
      ensures Owns(s, c, ids[k])
    {
      assert ids[k] in ids;
    }
  }

  /** The rows of `ids`, in the order of `ids`. */
  lemma ViewsOfIds(items: map<int, Item>, ids: seq<int>)
    requires forall k :: 0 <= k < |ids| ==> ids[k] in items
    ensures var v := Views(items, ids);
      && (forall k :: 0 <= k < |v| ==> v[k].id == ids[k] && v[k].item == items[ids[k]])
      && (forall i :: i in ids ==> exists k :: 0 <= k < |v| && v[k].id == i)
      && (Increasing(ids) ==> forall k, l :: 0 <= k < l < |v| ==> v[k].id < v[l].id)
  {
    var v := Views(items, ids);
    forall i | i in ids
      ensures exists k :: 0 <= k < |v| && v[k].id == i
    {
      var k :| 0 <= k < |ids| && ids[k] == i;
      assert v[k].id == i;
    }
  }

  /**
   * The attach route answers with the character as it is after the change:
   * its items are the ones it held before plus item `i`, and its totals are
   * those of the new store.
   */
  lemma AttachResponse(s: Store, c: int, i: int)
    ensures Attach(s, c, i).Success? ==>
      var (s', v) := Attach(s, c, i).value;
      && Shows(s', c, v)
      && (forall j :: Owns(s', c, j) <==> j == i || Owns(s, c, j))
      && (exists k :: 0 <= k < |v.items| && v.items[k].id == i)
  {
    if Attach(s, c, i).Success? {
      var s' := Attach(s, c, i).value.0;
      ViewShows(s', c);
      assert Owns(s', c, i);
    }
  }

  /** List a character's items, in storage order. */
  function ListItems(s: Store, c: int): (r: Result<seq<ItemView>, Error>)
    ensures r.Failure? <==> c !in s.characters
    ensures r.Failure? ==> r.error == CharacterNotFound
    ensures r.Success? ==> forall k :: 0 <= k < |r.value| ==> Owns(s, c, r.value[k].id) && r.value[k].item == s.items[r.value[k].id]
    ensures r.Success? ==> forall i :: Owns(s, c, i) ==> exists k :: 0 <= k < |r.value| && r.value[k].id == i
    ensures r.Success? ==> forall k, l :: 0 <= k < l < |r.value| ==> r.value[k].id < r.value[l].id
  {
    if c !in s.characters then Failure(CharacterNotFound)
    else
      OwnedViews(s, c);
      Success(Views(s.items, ItemsOf(s, c)))
  }

  /** Detach item `i` from character `c`; the item stays in the store. */
  function Detach(s: Store, c: int, i: int): (r: Result<Store, Error>)
    ensures r.Failure? ==> r.error in {CharacterNotFound, NotInInventory}
    ensures r == Failure(CharacterNotFound) <==> c !in s.characters
    ensures r == Failure(NotInInventory) <==> c in s.characters && !Owns(s, c, i)
    ensures r.Success? ==> r.value == Assign(s, i, None)
  {
    if c !in s.characters then Failure(CharacterNotFound)
    else if !Owns(s, c, i) then Failure(NotInInventory)
    else Success(Assign(s, i, None))
  }

  /** Get a character's amulet: the first owned item of type Amuleto. */
  function GetAmulet(s: Store, c: int): (r: Result<ItemView, Error>)
    ensures r.Failure? ==> r.error in {CharacterNotFound, NoAmulet}
    ensures r == Failure(CharacterNotFound) <==> c !in s.characters
    ensures r == Failure(NoAmulet) <==>
      c in s.characters && forall i :: Owns(s, c, i) ==> s.items[i].kind != Amulet
    ensures r.Success? ==> Owns(s, c, r.value.id) && r.value.item == s.items[r.value.id] && r.value.item.kind == Amulet
  {
    if c !in s.characters then Failure(CharacterNotFound)
    else
      AmuletOfAbsent(s, c);
      match AmuletOf(s, c)
      case None => Failure(NoAmulet)
      case Some(a) =>
        AmuletOfOwned(s, c);
        Success(ItemView(a, s.items[a]))
  }
}

=== FILE: inventory_lemmas.dfy ===
/**
 * Properties of the inventory routes: every route keeps the store invariant,
 * attaching and detaching undo each other, the derived totals move by
 * exactly the bonus of the item that changed hands, and the amulet a
 * character reports is its only one.
 */
module InventoryLemmas {
  import opened Results
  import opened Ids
  import opened Entities
  import opened Validation
  import opened Inventory

  // ---------------------------------------------------------------------
  // Amulets
  // ---------------------------------------------------------------------

  /** In a valid store the amulet `amuleto` reports is the character's only amulet. */
  lemma AmuletIsUnique(s: Store, c: int)
    requires Valid(s)
    ensures AmuletOf(s, c).Some? ==>
      forall j :: Owns(s, c, j) && s.items[j].kind == Amulet ==> j == AmuletOf(s, c).value
  {
    if AmuletOf(s, c).Some? {
      AmuletOfOwned(s, c);
    }
  }

  /** In a valid store the get-amulet route returns the character's only amulet. */
  lemma GetAmuletReturnsTheAmulet(s: Store, c: int)
    requires Valid(s)
    ensures GetAmulet(s, c).Success? ==>
      && AmuletOf(s, c) == Some(GetAmulet(s, c).value.id)
      && forall j :: Owns(s, c, j) && s.items[j].kind == Amulet ==> j == GetAmulet(s, c).value.id
  {
    if GetAmulet(s, c).Success? {
      AmuletOfAbsent(s, c);
      AmuletIsUnique(s, c);
    }
  }

  /**
   * In a valid store, attaching an amulet conflicts exactly when the
   * character already holds a different amulet.
   */
  lemma AttachConflictMeansOtherAmulet(s: Store, c: int, i: int)
    requires Valid(s)
    ensures Attach(s, c, i) == Failure(AmuletConflict) <==>
      && c in s.characters && i in s.items && s.items[i].owner in {None, Some(c)}
      && s.items[i].kind == Amulet
      && exists j :: j != i && Owns(s, c, j) && s.items[j].kind == Amulet
  {
    AmuletOfAbsent(s, c);
    if AmuletOf(s, c).Some? {
      AmuletOfOwned(s, c);
      AmuletIsUnique(s, c);
    }
  }

  // ---------------------------------------------------------------------
  // The invariant is kept by every route
  // ---------------------------------------------------------------------

  /** A created character is valid and starts with no items, so its totals are its base values. */
  lemma CreateCharacterKeepsValid(s: Store, req: CharacterRequest)
    requires Valid(s)
    ensures CreateCharacter(s, req).Success? ==>
      var (s', v) := CreateCharacter(s, req).value;
      && Valid(s')
      && v.items == []
      && v.totalStrength == v.character.baseStrength
      && v.totalDefense == v.character.baseDefense
  {
    if ValidateCharacter(req).Success? {
      var character := ValidateCharacter(req).value;
      var id := FreshId(s.characters.Keys);
      var s' := Store(s.characters[id := character], s.items);
      assert CreateCharacter(s, req) == Success((s', View(s', id)));
      assert CharacterRules(character);
      forall c | c in s'.characters
        ensures CharacterRules(s'.characters[c])
      {
        if c != id {
          assert s'.characters[c] == s.characters[c];
        }
      }
      forall i | i in s'.items
        ensures !Owns(s', id, i)
      {
        assert s'.items[i] == s.items[i];
      }
      assert ItemsOf(s', id) == [];
    }
  }

  lemma CreateItemKeepsValid(s: Store, req: ItemRequest)
    requires Valid(s)
    ensures CreateItem(s, req).Success? ==> Valid(CreateItem(s, req).value.0)
  {
    if ValidateItem(req).Success? {
      var item := ValidateItem(req).value;
      var id := FreshId(s.items.Keys);
      var s' := s.(items := s.items[id := item]);
      assert CreateItem(s, req) == Success((s', ItemView(id, item)));
      AcceptedItemMeetsTable(req);
      forall i | i in s'.items
        ensures ItemTableChecks(s'.items[i])
        ensures s'.items[i].owner.Some? ==> s'.items[i].owner.value in s'.characters
      {
        if i != id {
          assert s'.items[i] == s.items[i];
        }
      }
      forall i, j | i in s'.items && j in s'.items && i != j && s'.items[i].kind == Amulet
                    && s'.items[j].kind == Amulet && s'.items[i].owner.Some?
        ensures s'.items[i].owner != s'.items[j].owner
      {
        if j != id {
          assert s'.items[i] == s.items[i] && s'.items[j] == s.items[j];
        }
      }
    }
  }

  lemma RenameKeepsValid(s: Store, c: int, name: string)
    requires Valid(s)
    ensures RenameAdventurer(s, c, name).Success? ==> Valid(RenameAdventurer(s, c, name).value.0)
  {
  }

  /** Deleting a character keeps the invariant: no item is left pointing at it, and every item stays retrievable. */
  lemma DeleteKeepsValid(s: Store, c: int)
    requires Valid(s)
    ensures DeleteCharacter(s, c).Success? ==>
      var s' := DeleteCharacter(s, c).value;
      && Valid(s')
      && forall i :: i in s.items ==> GetItem(s', i).Success?
  {
    if DeleteCharacter(s, c).Success? {
      var s' := DeleteCharacter(s, c).value;
      forall i, j | i in s'.items && j in s'.items && i != j && s'.items[i].kind == Amulet
                    && s'.items[j].kind == Amulet && s'.items[i].owner.Some?
        ensures s'.items[i].owner != s'.items[j].owner
      {
        assert s'.items[i] == s.items[i];
      }
    }
  }

  /**
   * Giving item `i` to character `c` keeps the invariant when `c` exists,
   * the item was free or already `c`'s, and `c` holds no other amulet.
   */
  lemma GiveKeepsValid(s: Store, c: int, i: int)
    requires Valid(s) && c in s.characters && i in s.items
    requires s.items[i].owner in {None, Some(c)}
    requires s.items[i].kind == Amulet ==> forall j :: j != i && Owns(s, c, j) ==> s.items[j].kind != Amulet
    ensures Valid(Assign(s, i, Some(c)))
  {
    var s' := Assign(s, i, Some(c));
    forall j, k | j in s'.items && k in s'.items && j != k && s'.items[j].kind == Amulet
                  && s'.items[k].kind == Amulet && s'.items[j].owner.Some?
      ensures s'.items[j].owner != s'.items[k].owner
    {
      if j == i {
        assert s'.items[k] == s.items[k];
        assert !Owns(s, c, k);
      } else if k == i {
        assert s'.items[j] == s.items[j];
        assert !Owns(s, c, j);
      } else {
        assert s'.items[j] == s.items[j] && s'.items[k] == s.items[k];
      }
    }
  }

  /** Attaching keeps the invariant; in particular no character ends up with two amulets. */
  lemma AttachKeepsValid(s: Store, c: int, i: int)
    requires Valid(s)
    ensures Attach(s, c, i).Success? ==> Valid(Attach(s, c, i).value.0)
  {
    if Attach(s, c, i).Success? {
      AttachConflictMeansOtherAmulet(s, c, i);
      GiveKeepsValid(s, c, i);
      assert Attach(s, c, i).value.0 == Assign(s, i, Some(c));
    }
  }

  lemma DetachKeepsValid(s: Store, c: int, i: int)
    requires Valid(s)
    ensures Detach(s, c, i).Success? ==> Valid(Detach(s, c, i).value)
  {
    if Detach(s, c, i).Success? {
      var s' := Detach(s, c, i).value;
      forall j, k | j in s'.items && k in s'.items && j != k && s'.items[j].kind == Amulet
                    && s'.items[k].kind == Amulet && s'.items[j].owner.Some?
        ensures s'.items[j].owner != s'.items[k].owner
      {
        assert j != i;
      }
    }
  }

  // ---------------------------------------------------------------------
  // Writes seen through the read routes
  // ---------------------------------------------------------------------

  /** A created character was not there before and reads back as the creation response; older characters read as before. */
  lemma CreateThenGetCharacter(s: Store, req: CharacterRequest)
    ensures CreateCharacter(s, req).Success? ==>
      var (s', v) := CreateCharacter(s, req).value;
      && GetCharacter(s, v.id) == Failure(CharacterNotFound)
      && GetCharacter(s', v.id) == Success(v)
      && forall d :: d in s.characters ==> GetCharacter(s', d) == GetCharacter(s, d)
  {
    if ValidateCharacter(req).Success? {
      var id := FreshId(s.characters.Keys);
      var s' := Store(s.characters[id := ValidateCharacter(req).value], s.items);
      assert CreateCharacter(s, req) == Success((s', View(s', id)));
      forall d | d in s.characters
        ensures GetCharacter(s', d) == GetCharacter(s, d)
      {
        SameRowSameView(s, s', d);
      }
    }
  }

  /** A character whose row and the items table are unchanged reads back exactly as before. */
  lemma SameRowSameView(s: Store, s': Store, d: int)
    requires d in s.characters && d in s'.characters
    requires s'.characters[d] == s.characters[d] && s'.items == s.items
    ensures View(s', d) == View(s, d)
  {
    assert ItemsOf(s', d) == ItemsOf(s, d);
  }

  /** A created item was not there before and reads back as the creation response; older items read as before. */
  lemma CreateThenGetItem(s: Store, req: ItemRequest)
    ensures CreateItem(s, req).Success? ==>
      var (s', v) := CreateItem(s, req).value;
      && GetItem(s, v.id) == Failure(ItemNotFound)
      && GetItem(s', v.id) == Success(v)
      && forall i :: i in s.items ==> GetItem(s', i) == GetItem(s, i)
  {
  }

  /** After a rename the character reads back with the new name and the same stats, totals and items. */
  lemma RenameThenGet(s: Store, c: int, name: string)
    ensures RenameAdventurer(s, c, name).Success? ==>
      var (s', v) := RenameAdventurer(s, c, name).value;
      && GetCharacter(s', c) == Success(v)
      && v.character.adventurerName == name
      && v.character.name == s.characters[c].name
      && v.totalStrength == Total(s, c, Strength)
      && v.totalDefense == Total(s, c, Defense)
      && v.items == View(s, c).items
  {
  }

  /** After a delete every route about that character answers not-found, and its former items read as unowned. */
  lemma DeleteThenGet(s: Store, c: int)
    ensures DeleteCharacter(s, c).Success? ==>
      var s' := DeleteCharacter(s, c).value;
      && GetCharacter(s', c) == Failure(CharacterNotFound)
      && ListItems(s', c) == Failure(CharacterNotFound)
      && GetAmulet(s', c) == Failure(CharacterNotFound)
      && (forall i :: Detach(s', c, i) == Failure(CharacterNotFound))
      && (forall i :: Attach(s', c, i) == Failure(CharacterNotFound))
      && forall i :: Owns(s, c, i) ==> GetItem(s', i) == Success(ItemView(i, s.items[i].(owner := None)))
  {
  }

  // ---------------------------------------------------------------------
  // Attach and detach undo each other
  // ---------------------------------------------------------------------

  /** Re-attaching an item to its owner succeeds and changes nothing, amulets included. */
  lemma ReattachChangesNothing(s: Store, c: int, i: int)
    requires Valid(s) && Owns(s, c, i)
    ensures Attach(s, c, i).Success? && Attach(s, c, i).value.0 == s
  {
    if s.items[i].kind == Amulet {
      AmuletOfAbsent(s, c);
      AmuletOfOwned(s, c);
      var a := AmuletOf(s, c).value;
      assert a == i;
    }
    AssignCurrentOwner(s, i);
  }

  /** Attaching an unowned item and detaching it again restores the store. */
  lemma AttachThenDetach(s: Store, c: int, i: int)
    requires i in s.items && s.items[i].owner.None?
    requires Attach(s, c, i).Success?
    ensures Detach(Attach(s, c, i).value.0, c, i) == Success(s)
  {
    AssignTwice(s, i, Some(c), None);
    AssignCurrentOwner(s, i);
  }

  /** An unowned item can be attached to an existing character that holds no amulet yet. */
  lemma AttachFreeItem(s: Store, c: int, i: int)
    requires c in s.characters && i in s.items && s.items[i].owner.None?
    requires s.items[i].kind == Amulet ==> forall j :: Owns(s, c, j) ==> s.items[j].kind != Amulet
    ensures Attach(s, c, i).Success?
    ensures Attach(s, c, i).value.0 == Assign(s, i, Some(c))
  {
    AmuletOfAbsent(s, c);
  }

  /** Detaching an item and attaching it back restores the store; an amulet never conflicts with itself. */
  lemma DetachThenAttach(s: Store, c: int, i: int)
    requires Valid(s)
    requires Detach(s, c, i).Success?
    ensures Attach(Detach(s, c, i).value, c, i).Success?
    ensures Attach(Detach(s, c, i).value, c, i).value.0 == s
  {
    var s1 := Detach(s, c, i).value;
    if s.items[i].kind == Amulet {
      forall j | Owns(s1, c, j)
        ensures s1.items[j].kind != Amulet
      {
        assert j != i && Owns(s, c, j);
      }
    }
    AttachFreeItem(s1, c, i);
    AssignTwice(s, i, None, Some(c));
    AssignCurrentOwner(s, i);
  }

  /**
   * Attach amulet A, fail to attach a second amulet B, detach A, then attach
   * B: the one-amulet rule blocks B only while A is held.
   */
  lemma AmuletSwap(s: Store, x: int, a: int, b: int)
    requires Valid(s) && x in s.characters
    requires a in s.items && b in s.items && a != b
    requires s.items[a].kind == Amulet && s.items[b].kind == Amulet
    requires s.items[a].owner.None? && s.items[b].owner.None?
    requires forall j :: Owns(s, x, j) ==> s.items[j].kind != Amulet
    ensures Attach(s, x, a).Success?
    ensures var s1 := Attach(s, x, a).value.0;
      && Attach(s1, x, b) == Failure(AmuletConflict)
      && Detach(s1, x, a).Success?
      && Attach(Detach(s1, x, a).value, x, b).Success?
  {
    AmuletOfAbsent(s, x);
    var s1 := Attach(s, x, a).value.0;
    AttachKeepsValid(s, x, a);
    AttachConflictMeansOtherAmulet(s1, x, b);
    assert Owns(s1, x, a) && s1.items[a].kind == Amulet;
    var s2 := Detach(s1, x, a).value;
    AmuletOfAbsent(s2, x);
    assert forall j :: Owns(s2, x, j) ==> s2.items[j].kind != Amulet by {
      forall j | Owns(s2, x, j)
        ensures s2.items[j].kind != Amulet
      {
        assert j != a && Owns(s, x, j);
      }
    }
  }

  // ---------------------------------------------------------------------
  // Derived totals
  // ---------------------------------------------------------------------

  /** A sum of bonuses of items with non-negative bonuses is non-negative. */
  lemma {:induction false} BonusSumNonNegative(items: map<int, Item>, ids: seq<int>, stat: Stat)
    requires forall k :: 0 <= k < |ids| ==> ids[k] in items && Bonus(items[ids[k]], stat) >= 0
    ensures BonusSum(items, ids, stat) >= 0
    decreases |ids|
  {
    if ids != [] {
      BonusSumNonNegative(items, ids[1..], stat);
    }
  }

  /** In a valid store a character's total is at least its base value, items only add. */
  lemma TotalAtLeastBase(s: Store, c: int, stat: Stat)
    requires Valid(s) && c in s.characters
    ensures Total(s, c, stat) >= Base(s.characters[c], stat)
  {
    var ids := ItemsOf(s, c);
    forall k | 0 <= k < |ids|
      ensures ids[k] in s.items && Bonus(s.items[ids[k]], stat) >= 0
    {
      assert ids[k] in ids;
    }
    BonusSumNonNegative(s.items, ids, stat);
  }

  /** How much `c`'s sum changes when item `i`, with bonus `b`, gets owner `o`. */
  function OwnerChangeDelta(was: Option<int>, o: Option<int>, c: int, b: int): int {
    (if o == Some(c) then b else 0) - (if was == Some(c) then b else 0)
  }

  /**
   * Changing the owner of one item changes the bonus sum over the items `c`
   * owns by that item's bonus, gained or lost, and by nothing else.
   */
  lemma {:induction false} BonusSumOwnerChange(items: map<int, Item>, ids: seq<int>, c: int, i: int, o: Option<int>, stat: Stat)
    requires i in items
    requires forall k :: 0 <= k < |ids| ==> ids[k] in items
    requires Increasing(ids)
    ensures var items' := items[i := items[i].(owner := o)];
      BonusSum(items', OwnedAmong(items', ids, c), stat)
      == BonusSum(items, OwnedAmong(items, ids, c), stat)
         + (if i in ids then OwnerChangeDelta(items[i].owner, o, c, Bonus(items[i], stat)) else 0)
    decreases |ids|
  {
    var items' := items[i := items[i].(owner := o)];
    if ids != [] {
      var h, t := ids[0], ids[1..];
      IncreasingTail(ids);
      BonusSumOwnerChange(items, t, c, i, o, stat);
      assert i in ids <==> i == h || i in t by {
        assert ids == [h] + t;
      }
      var rest', rest := OwnedAmong(items', t, c), OwnedAmong(items, t, c);
      assert ([h] + rest')[1..] == rest' && ([h] + rest)[1..] == rest;
    }
  }

  /** Giving item `i` owner `o` moves every total by at most that item's bonus. */
  lemma TotalAfterAssign(s: Store, i: int, o: Option<int>, d: int, stat: Stat)
    requires i in s.items && d in s.characters
    ensures Total(Assign(s, i, o), d, stat)
         == Total(s, d, stat) + OwnerChangeDelta(s.items[i].owner, o, d, Bonus(s.items[i], stat))
  {
    var s' := Assign(s, i, o);
    assert s'.items.Keys == s.items.Keys;
    var ids := Ascending(s.items.Keys);
    assert i in ids;
    BonusSumOwnerChange(s.items, ids, d, i, o, stat);
  }

  /**
   * After a successful attach every character's total is unchanged, except
   * that the receiving character gains the item's bonus if it did not hold
   * the item already.
   */
  lemma AttachAddsBonus(s: Store, c: int, i: int, d: int, stat: Stat)
    requires Attach(s, c, i).Success? && d in s.characters
    ensures Total(Attach(s, c, i).value.0, d, stat)
         == Total(s, d, stat) + (if d == c && s.items[i].owner != Some(c) then Bonus(s.items[i], stat) else 0)
  {
    TotalAfterAssign(s, i, Some(c), d, stat);
  }

  /**
   * After a successful detach the former owner loses exactly the item's
   * bonus and every other character's total is unchanged.
   */
  lemma DetachRemovesBonus(s: Store, c: int, i: int, d: int, stat: Stat)
    requires Detach(s, c, i).Success? && d in s.characters
    ensures Total(Detach(s, c, i).value, d, stat)
         == Total(s, d, stat) - (if d == c then Bonus(s.items[i], stat) else 0)
  {
    TotalAfterAssign(s, i, None, d, stat);
  }

  /**
   * The character the attach route answers with carries the totals of the
   * store after the request: the old totals plus the bonuses of the item if
   * it was not already held.
   */
  lemma AttachResponseTotals(s: Store, c: int, i: int)
    requires Attach(s, c, i).Success?
    ensures var v := Attach(s, c, i).value.1;
      var gained := s.items[i].owner != Some(c);
      && v.totalStrength == Total(s, c, Strength) + (if gained then s.items[i].strength else 0)
      && v.totalDefense == Total(s, c, Defense) + (if gained then s.items[i].defense else 0)
  {
    AttachResponse(s, c, i);
    AttachAddsBonus(s, c, i, c, Strength);
    AttachAddsBonus(s, c, i, c, Defense);
  }
}

=== FILE: results.dfy ===
/** Optional values and success-or-error outcomes shared by the whole model. */
module Results {

  /** A value that may be absent: an omitted request field, a nullable column. */
  datatype Option<+T> = None | Some(value: T) {

    /** The value, or the given default when absent. */
    function GetOr(default: T): T {
      match this
      case Some(v) => v
      case None => default
    }
  }

  /** Either a value or the error the service reports instead. */
  datatype Result<+T, +E> = Success(value: T) | Failure(error: E)
}

=== FILE: validation.dfy ===
/**
 * Request validation of the two create payloads (ItemMagicoBase and
 * PersonagemBase), following the rules of the pydantic v1 request models:
 *
 *  - fields are validated one after another in declaration order;
 *  - for one field the declared type and its bounds (`conint(ge=…, le=…)`,
 *    lower bound first) are checked first, then the field's custom
 *    validators in declaration order; the first failure ends that field;
 *  - a field that failed is left out of `values`, so a later validator that
 *    reads it (guarded by `"f" in values`) does not fire;
 *  - a field left out of the payload takes its default, which is put into
 *    `values` WITHOUT running the field's validators; a field with no
 *    default is reported missing;
 *  - the errors of all fields are reported together, in field order.
 */
module Validation {
  import opened Results
  import opened Entities

  /** The payload fields that can be reported as wrong. */
  datatype Field =
    | Name | AdventurerName | Class | Level | BaseStrength | BaseDefense
    | Kind | ItemStrength | ItemDefense

  /** Position of a field in the declaration order of its request model. */
  function Rank(f: Field): nat {
    match f
    case Name => 0
    case AdventurerName => 1
    case Class => 2
    case Level => 3
    case BaseStrength => 4
    case BaseDefense => 5
    case Kind => 1
    case ItemStrength => 2
    case ItemDefense => 3
  }

  /** What made a field invalid (error kinds, not message text). */
  datatype Problem =
    | Missing            // required field absent
    | NotAMember         // not a value of the enumeration
    | BelowMinimum       // conint ge bound
    | AboveMaximum       // conint le bound
    | ArmourHasStrength  // Armadura items must have strength 0
    | WeaponHasDefense   // Arma items must have defense 0
    | NoAttribute        // strength and defense both 0
    | BudgetExceeded     // base strength + base defense above 10

  datatype FieldError = FieldError(field: Field, problem: Problem)

  /** What one field's validator chain leaves behind: the value placed into `values`, or its first problem. */
  datatype Check<+T> = Passed(value: T) | Failed(problem: Problem)

  /** Errors name distinct fields in declaration order: one report per field at most. */
  predicate InFieldOrder(errors: seq<FieldError>) {
    forall i, j :: 0 <= i < j < |errors| ==> Rank(errors[i].field) < Rank(errors[j].field)
  }

  /** Every error names a field placed before position `n`. */
  predicate RanksBelow(errors: seq<FieldError>, n: nat) {
    forall i :: 0 <= i < |errors| ==> Rank(errors[i].field) < n
  }

  /** Adds the report of field `f` to the errors of the fields declared before it. */
  function Then<T>(errors: seq<FieldError>, f: Field, c: Check<T>): (r: seq<FieldError>)
    ensures c.Passed? ==> r == errors
    ensures c.Failed? ==> r == errors + [FieldError(f, c.problem)]
    ensures InFieldOrder(errors) && RanksBelow(errors, Rank(f)) ==> InFieldOrder(r) && RanksBelow(r, Rank(f) + 1)
  {
    if c.Passed? then errors else errors + [FieldError(f, c.problem)]
  }

  /** A required field with no default. */
  function Required<T>(raw: Option<T>): Check<T> {
    match raw
    case None => Failed(Missing)
    case Some(v) => Passed(v)
  }

  /** A `conint(ge=lo, le=hi)` bound; `hi` is None for `conint(ge=lo)`. */
  function Bounded(v: int, lo: int, hi: Option<int>): (r: Check<int>)
    ensures r.Passed? <==> lo <= v && (hi.None? || v <= hi.value)
    ensures r.Passed? ==> r.value == v
  {
    if v < lo then Failed(BelowMinimum)
    else if hi.Some? && v > hi.value then Failed(AboveMaximum)
    else Passed(v)
  }

  // ---------------------------------------------------------------------
  // Magic items
  // ---------------------------------------------------------------------

  /** The create-item payload; None marks a field left out. */
  datatype ItemRequest = ItemRequest(
    name: Option<string>,
    kind: Option<string>,
    strength: Option<int>,
    defense: Option<int>)

  function KindCheck(raw: Option<string>): Check<ItemKind> {
    match raw
    case None => Failed(Missing)
    case Some(s) => if ParseKind(s).Some? then Passed(ParseKind(s).value) else Failed(NotAMember)
  }

  /** `forca: conint(ge=0, le=10) = 0` with its Armadura validator. */
  function StrengthCheck(kind: Check<ItemKind>, raw: Option<int>): Check<int> {
    match raw
    case None => Passed(0)
    case Some(v) =>
      var bounded := Bounded(v, 0, Some(10));
      if bounded.Failed? then bounded
      else if kind.Passed? && kind.value == Armour && v != 0 then Failed(ArmourHasStrength)
      else Passed(v)
  }

  /**
   * `defesa: conint(ge=0, le=10) = 0` with its Arma validator and then the
   * at-least-one-attribute validator. With `checkDefault` false an omitted
   * defense skips every validator, as the request model is written; with it
   * true the validators also run on the default.
   */
  function DefenseCheck(kind: Check<ItemKind>, strength: Check<int>, raw: Option<int>, checkDefault: bool): Check<int> {
    if raw.None? && !checkDefault then Passed(0)
    else
      var v := raw.GetOr(0);
      var bounded := Bounded(v, 0, Some(10));
      if bounded.Failed? then bounded
      else if kind.Passed? && kind.value == Weapon && v != 0 then Failed(WeaponHasDefense)
      else if strength.Passed? && strength.value == 0 && v == 0 then Failed(NoAttribute)
      else Passed(v)
  }

  /** Runs the item request model; the accepted item is not yet owned. */
  function CheckItem(req: ItemRequest, checkDefault: bool): Result<Item, seq<FieldError>> {
    var name := Required(req.name);
    var kind := KindCheck(req.kind);
    var strength := StrengthCheck(kind, req.strength);
    var defense := DefenseCheck(kind, strength, req.defense, checkDefault);
    if name.Passed? && kind.Passed? && strength.Passed? && defense.Passed? then
      Success(Item(name.value, kind.value, strength.value, defense.value, None))
    else
      Failure(Then(Then(Then(Then([], Name, name), Kind, kind), ItemStrength, strength), ItemDefense, defense))
  }

  /** The item a payload describes, defaults filled in, when its name and type are usable. */
  function RequestedItem(req: ItemRequest): Option<Item> {
    if req.name.Some? && req.kind.Some? && ParseKind(req.kind.value).Some? then
      Some(Item(req.name.value, ParseKind(req.kind.value).value, req.strength.GetOr(0), req.defense.GetOr(0), None))
    else None
  }

  /**
   * The item request model as written: an omitted defense is never
   * validated, so the at-least-one-attribute rule is skipped for it.
   */
  function ValidateItemAsWritten(req: ItemRequest): (r: Result<Item, seq<FieldError>>)
    ensures r.Success? <==>
      && RequestedItem(req).Some?
      && var i := RequestedItem(req).value;
         && 0 <= i.strength <= 10 && 0 <= i.defense <= 10
         && (i.kind != Weapon || i.defense == 0)
         && (i.kind != Armour || i.strength == 0)
         && (i.strength > 0 || i.defense > 0 || req.defense.None?)
    ensures r.Success? ==> Some(r.value) == RequestedItem(req)
  {
    CheckItem(req, false)
  }

  /**
   * The item request model with its validators also run on an omitted
   * defense: a payload is accepted exactly when it names an item type and
   * the item it describes meets every CHECK constraint of the items table.
   */
  function ValidateItem(req: ItemRequest): (r: Result<Item, seq<FieldError>>)
    ensures r.Success? <==> RequestedItem(req).Some? && ItemTableChecks(RequestedItem(req).value)
    ensures r.Success? ==> Some(r.value) == RequestedItem(req)
    ensures r.Failure? ==> |r.error| > 0
  {
    CheckItem(req, true)
  }

  /** Each field of the item payload is reported at most once, in declaration order. */
  lemma ItemErrorsInFieldOrder(req: ItemRequest)
    ensures ValidateItem(req).Failure? ==> InFieldOrder(ValidateItem(req).error)
  {
    var name := Required(req.name);
    var kind := KindCheck(req.kind);
    var strength := StrengthCheck(kind, req.strength);
    var defense := DefenseCheck(kind, strength, req.defense, true);
    var e1 := Then([], Name, name);
    assert InFieldOrder(e1) && RanksBelow(e1, Rank(Kind));
    var e2 := Then(e1, Kind, kind);
    assert InFieldOrder(e2) && RanksBelow(e2, Rank(ItemStrength));
    var e3 := Then(e2, ItemStrength, strength);
    assert InFieldOrder(e3) && RanksBelow(e3, Rank(ItemDefense));
    var e4 := Then(e3, ItemDefense, defense);
    assert InFieldOrder(e4);
  }

  /** The problem a `conint(ge=0, le=10)` bound reports for a value outside it. */
  function RangeProblem(v: int): Problem {
    if v < 0 then BelowMinimum else AboveMaximum
  }

  /**
   * Range checks come before the Armadura rule: a strength outside [0,10] is
   * reported as out of range, whatever the type.
   */
  lemma RangeBeforeTypeRule(req: ItemRequest)
    requires req.strength.Some? && (req.strength.value < 0 || req.strength.value > 10)
    ensures ValidateItem(req).Failure?
    ensures FieldError(ItemStrength, RangeProblem(req.strength.value)) in ValidateItem(req).error
    ensures FieldError(ItemStrength, ArmourHasStrength) !in ValidateItem(req).error
  {
  }

  /**
   * Range checks come before the Arma rule and the attribute rule: a defense
   * outside [0,10] is reported as out of range and as nothing else.
   */
  lemma DefenseRangeBeforeTypeRules(req: ItemRequest)
    requires req.defense.Some? && (req.defense.value < 0 || req.defense.value > 10)
    ensures ValidateItem(req).Failure?
    ensures FieldError(ItemDefense, RangeProblem(req.defense.value)) in ValidateItem(req).error
    ensures FieldError(ItemDefense, WeaponHasDefense) !in ValidateItem(req).error
    ensures FieldError(ItemDefense, NoAttribute) !in ValidateItem(req).error
  {
    var kind := KindCheck(req.kind);
    var strength := StrengthCheck(kind, req.strength);
    var e3 := Then(Then(Then([], Name, Required(req.name)), Kind, kind), ItemStrength, strength);
    assert RanksBelow(e3, Rank(ItemDefense));
    assert DefenseCheck(kind, strength, req.defense, true) == Failed(RangeProblem(req.defense.value));
    assert FieldError(ItemDefense, WeaponHasDefense) !in e3 && FieldError(ItemDefense, NoAttribute) !in e3;
  }

  /** The two item request models differ only when defense is left out. */
  lemma AsWrittenAgreesWhenDefenseSent(req: ItemRequest)
    requires req.defense.Some?
    ensures ValidateItemAsWritten(req) == ValidateItem(req)
  {
  }

  /**
   * A strength that failed its own validator is absent from `values`, so the
   * at-least-one-attribute check on defense is skipped.
   */
  lemma FailedStrengthSkipsAttributeCheck(req: ItemRequest)
    requires StrengthCheck(KindCheck(req.kind), req.strength).Failed?
    ensures ValidateItem(req).Failure?
    ensures FieldError(ItemDefense, NoAttribute) !in ValidateItem(req).error
  {
  }

  /** A type that is missing or not an enumeration member is absent from `values`: the per-type rules are skipped. */
  lemma UnknownKindSkipsTypeRules(req: ItemRequest)
    requires req.kind.None? || ParseKind(req.kind.value).None?
    ensures ValidateItem(req).Failure?
    ensures FieldError(ItemStrength, ArmourHasStrength) !in ValidateItem(req).error
    ensures FieldError(ItemDefense, WeaponHasDefense) !in ValidateItem(req).error
  {
  }

  /** A name or type left out is reported missing; a type that is not a member is reported as such. */
  lemma ItemFieldProblemsReported(req: ItemRequest)
    ensures req.name.None? ==> ValidateItem(req).Failure? && FieldError(Name, Missing) in ValidateItem(req).error
    ensures req.kind.None? ==> ValidateItem(req).Failure? && FieldError(Kind, Missing) in ValidateItem(req).error
    ensures req.kind.Some? && ParseKind(req.kind.value).None? ==>
      ValidateItem(req).Failure? && FieldError(Kind, NotAMember) in ValidateItem(req).error
  {
  }

  /** An Armadura sent with a strength in (0,10] is reported by the Armadura rule. */
  lemma ArmourStrengthReported(req: ItemRequest)
    requires req.kind == Some("Armadura") && req.strength.Some? && 0 < req.strength.value <= 10
    ensures ValidateItem(req).Failure?
    ensures FieldError(ItemStrength, ArmourHasStrength) in ValidateItem(req).error
  {
  }

  /** An Arma sent with a defense in (0,10] is reported by the Arma rule. */
  lemma WeaponDefenseReported(req: ItemRequest)
    requires req.kind == Some("Arma") && req.defense.Some? && 0 < req.defense.value <= 10
    ensures ValidateItem(req).Failure?
    ensures FieldError(ItemDefense, WeaponHasDefense) in ValidateItem(req).error
  {
  }

  /**
   * Strength and defense both 0, sent or defaulted, are reported by the
   * attribute rule, whatever the type; as written, only when defense is sent.
   */
  lemma NoAttributeReported(req: ItemRequest)
    requires req.strength.GetOr(0) == 0 && req.defense.GetOr(0) == 0
    ensures ValidateItem(req).Failure?
    ensures FieldError(ItemDefense, NoAttribute) in ValidateItem(req).error
    ensures req.defense.Some? ==>
      ValidateItemAsWritten(req).Failure? && FieldError(ItemDefense, NoAttribute) in ValidateItemAsWritten(req).error
  {
  }

  /** An Armadura with no bonuses passes both type rules and fails only the attribute rule. */
  lemma ArmourWithoutBonusLacksAttribute(name: string)
    ensures ValidateItem(ItemRequest(Some(name), Some("Armadura"), Some(0), Some(0)))
         == Failure([FieldError(ItemDefense, NoAttribute)])
  {
    var req := ItemRequest(Some(name), Some("Armadura"), Some(0), Some(0));
    assert KindCheck(req.kind) == Passed(Armour);
    assert [] + [FieldError(ItemDefense, NoAttribute)] == [FieldError(ItemDefense, NoAttribute)];
  }

  /** An Arma with defense 3 fails the Arma rule; one with strength 5 and defense 0 is accepted. */
  lemma WeaponExamples(name: string)
    ensures ValidateItem(ItemRequest(Some(name), Some("Arma"), Some(0), Some(3)))
         == Failure([FieldError(ItemDefense, WeaponHasDefense)])
    ensures ValidateItem(ItemRequest(Some(name), Some("Arma"), Some(5), Some(0)))
         == Success(Item(name, Weapon, 5, 0, None))
  {
    assert [] + [FieldError(ItemDefense, WeaponHasDefense)] == [FieldError(ItemDefense, WeaponHasDefense)];
  }

  /**
   * The request model as written accepts an Amuleto whose strength and
   * defense are both left out, although the item has no attribute above 0
   * and so breaks the items table; the corrected model rejects it.
   */
  lemma AsWrittenAcceptsItemWithoutAttribute(name: string)
    ensures ValidateItemAsWritten(ItemRequest(Some(name), Some("Amuleto"), None, None))
         == Success(Item(name, Amulet, 0, 0, None))
    ensures !ItemTableChecks(Item(name, Amulet, 0, 0, None))
    ensures ValidateItem(ItemRequest(Some(name), Some("Amuleto"), None, None))
         == Failure([FieldError(ItemDefense, NoAttribute)])
  {
    assert [] + [FieldError(ItemDefense, NoAttribute)] == [FieldError(ItemDefense, NoAttribute)];
  }

  /** Every item the corrected request model accepts meets the items table constraints. */
  lemma AcceptedItemMeetsTable(req: ItemRequest)
    ensures ValidateItem(req).Success? ==> ItemTableChecks(ValidateItem(req).value)
  {
  }

  // ---------------------------------------------------------------------
  // Characters
  // ---------------------------------------------------------------------

  /** The create-character payload; None marks a field left out. */
  datatype CharacterRequest = CharacterRequest(
    name: Option<string>,
    adventurerName: Option<string>,
    role: Option<string>,
    level: Option<int>,
    baseStrength: Option<int>,
    baseDefense: Option<int>)

  function ClassCheck(raw: Option<string>): Check<CharacterClass> {
    match raw
    case None => Failed(Missing)
    case Some(s) => if ParseClass(s).Some? then Passed(ParseClass(s).value) else Failed(NotAMember)
  }

  /** `level: conint(ge=1) = 1`. */
  function LevelCheck(raw: Option<int>): Check<int> {
    match raw
    case None => Passed(1)
    case Some(v) => Bounded(v, 1, None)
  }

  /** `forca_base: conint(ge=0, le=10)`, required. */
  function BaseStrengthCheck(raw: Option<int>): Check<int> {
    match raw
    case None => Failed(Missing)
    case Some(v) => Bounded(v, 0, Some(10))
  }

  /** `defesa_base: conint(ge=0, le=10)`, required, with the point-budget validator. */
  function BaseDefenseCheck(strength: Check<int>, raw: Option<int>): Check<int> {
    match raw
    case None => Failed(Missing)
    case Some(v) =>
      var bounded := Bounded(v, 0, Some(10));
      if bounded.Failed? then bounded
      else if strength.Passed? && strength.value + v > 10 then Failed(BudgetExceeded)
      else Passed(v)
  }

  /** The rules the character request model enforces. */
  predicate CharacterRules(c: Character) {
    && c.level >= 1
    && 0 <= c.baseStrength <= 10
    && 0 <= c.baseDefense <= 10
    && c.baseStrength + c.baseDefense <= 10
  }

  /** The character a payload describes, level defaulted to 1, when every required field is there. */
  function RequestedCharacter(req: CharacterRequest): Option<Character> {
    if && req.name.Some? && req.adventurerName.Some? && req.role.Some?
       && ParseClass(req.role.value).Some? && req.baseStrength.Some? && req.baseDefense.Some?
    then
      Some(Character(req.name.value, req.adventurerName.value, ParseClass(req.role.value).value,
                     req.level.GetOr(1), req.baseStrength.value, req.baseDefense.value))
    else None
  }

  /**
   * Runs the character request model: a payload is accepted exactly when it
   * describes a character within the level, range and budget rules, and
   * every accepted character meets the characters table constraints.
   */
  function ValidateCharacter(req: CharacterRequest): (r: Result<Character, seq<FieldError>>)
    ensures r.Success? <==> RequestedCharacter(req).Some? && CharacterRules(RequestedCharacter(req).value)
    ensures r.Success? ==> Some(r.value) == RequestedCharacter(req) && CharacterTableChecks(r.value)
    ensures r.Failure? ==> |r.error| > 0
  {
    var name := Required(req.name);
    var adventurerName := Required(req.adventurerName);
    var role := ClassCheck(req.role);
    var level := LevelCheck(req.level);
    var strength := BaseStrengthCheck(req.baseStrength);
    var defense := BaseDefenseCheck(strength, req.baseDefense);
    if name.Passed? && adventurerName.Passed? && role.Passed? && level.Passed? && strength.Passed? && defense.Passed? then
      Success(Character(name.value, adventurerName.value, role.value, level.value, strength.value, defense.value))
    else
      var errors := Then(Then(Then([], Name, name), AdventurerName, adventurerName), Class, role);
      Failure(Then(Then(Then(errors, Level, level), BaseStrength, strength), BaseDefense, defense))
  }

  /** Each field of the character payload is reported at most once, in declaration order. */
  lemma CharacterErrorsInFieldOrder(req: CharacterRequest)
    ensures ValidateCharacter(req).Failure? ==> InFieldOrder(ValidateCharacter(req).error)
  {
    var strength := BaseStrengthCheck(req.baseStrength);
    var e1 := Then([], Name, Required(req.name));
    assert InFieldOrder(e1) && RanksBelow(e1, Rank(AdventurerName));
    var e2 := Then(e1, AdventurerName, Required(req.adventurerName));
    assert InFieldOrder(e2) && RanksBelow(e2, Rank(Class));
    var e3 := Then(e2, Class, ClassCheck(req.role));
    assert InFieldOrder(e3) && RanksBelow(e3, Rank(Level));
    var e4 := Then(e3, Level, LevelCheck(req.level));
    assert InFieldOrder(e4) && RanksBelow(e4, Rank(BaseStrength));
    var e5 := Then(e4, BaseStrength, strength);
    assert InFieldOrder(e5) && RanksBelow(e5, Rank(BaseDefense));
    var e6 := Then(e5, BaseDefense, BaseDefenseCheck(strength, req.baseDefense));
    assert InFieldOrder(e6);
  }

  /** 6 strength and 4 defense fit the budget; 7 and 4 exceed it and only defense is reported. */
  lemma BudgetExamples(name: string, nick: string)
    ensures ValidateCharacter(CharacterRequest(Some(name), Some(nick), Some("Mago"), None, Some(6), Some(4)))
         == Success(Character(name, nick, Mage, 1, 6, 4))
    ensures ValidateCharacter(CharacterRequest(Some(name), Some(nick), Some("Mago"), None, Some(7), Some(4)))
         == Failure([FieldError(BaseDefense, BudgetExceeded)])
  {
    assert [] + [FieldError(BaseDefense, BudgetExceeded)] == [FieldError(BaseDefense, BudgetExceeded)];
  }

  /** A base strength that failed its range is absent from `values`, so the budget check is skipped. */
  lemma FailedStrengthSkipsBudget(req: CharacterRequest)
    requires BaseStrengthCheck(req.baseStrength).Failed?
    ensures ValidateCharacter(req).Failure?
    ensures FieldError(BaseDefense, BudgetExceeded) !in ValidateCharacter(req).error
  {
    var strength := BaseStrengthCheck(req.baseStrength);
    var e1 := Then([], Name, Required(req.name));
    var e2 := Then(e1, AdventurerName, Required(req.adventurerName));
    var e3 := Then(e2, Class, ClassCheck(req.role));
    var e4 := Then(e3, Level, LevelCheck(req.level));
    var e5 := Then(e4, BaseStrength, strength);
    assert RanksBelow(e5, Rank(BaseDefense));
    var defense := BaseDefenseCheck(strength, req.baseDefense);
    assert defense != Failed(BudgetExceeded);
    assert FieldError(BaseDefense, BudgetExceeded) !in e5;
  }

  /** Each required field left out is reported missing; a class that is not a member is reported as such. */
  lemma CharacterFieldProblemsReported(req: CharacterRequest)
    ensures req.name.None? ==> ValidateCharacter(req).Failure? && FieldError(Name, Missing) in ValidateCharacter(req).error
    ensures req.adventurerName.None? ==>
      ValidateCharacter(req).Failure? && FieldError(AdventurerName, Missing) in ValidateCharacter(req).error
    ensures req.role.None? ==> ValidateCharacter(req).Failure? && FieldError(Class, Missing) in ValidateCharacter(req).error
    ensures req.role.Some? && ParseClass(req.role.value).None? ==>
      ValidateCharacter(req).Failure? && FieldError(Class, NotAMember) in ValidateCharacter(req).error
    ensures req.baseStrength.None? ==>
      ValidateCharacter(req).Failure? && FieldError(BaseStrength, Missing) in ValidateCharacter(req).error
    ensures req.baseDefense.None? ==>
      ValidateCharacter(req).Failure? && FieldError(BaseDefense, Missing) in ValidateCharacter(req).error
  {
  }

  /** A level sent below 1 is reported below minimum. */
  lemma LevelBelowMinimumReported(req: CharacterRequest)
    requires req.level.Some? && req.level.value < 1
    ensures ValidateCharacter(req).Failure?
    ensures FieldError(Level, BelowMinimum) in ValidateCharacter(req).error
  {
  }

  /** A base strength outside [0,10] is reported by its bounds. */
  lemma BaseStrengthRangeReported(req: CharacterRequest)
    requires req.baseStrength.Some? && (req.baseStrength.value < 0 || req.baseStrength.value > 10)
    ensures ValidateCharacter(req).Failure?
    ensures FieldError(BaseStrength, RangeProblem(req.baseStrength.value)) in ValidateCharacter(req).error
  {
  }

  /** A base defense outside [0,10] is reported by its bounds, and never as a budget excess. */
  lemma BaseDefenseRangeReported(req: CharacterRequest)
    requires req.baseDefense.Some? && (req.baseDefense.value < 0 || req.baseDefense.value > 10)
    ensures ValidateCharacter(req).Failure?
    ensures FieldError(BaseDefense, RangeProblem(req.baseDefense.value)) in ValidateCharacter(req).error
    ensures FieldError(BaseDefense, BudgetExceeded) !in ValidateCharacter(req).error
  {
    var strength := BaseStrengthCheck(req.baseStrength);
    var e1 := Then([], Name, Required(req.name));
    var e2 := Then(e1, AdventurerName, Required(req.adventurerName));
    var e3 := Then(e2, Class, ClassCheck(req.role));
    var e4 := Then(e3, Level, LevelCheck(req.level));
    var e5 := Then(e4, BaseStrength, strength);
    assert RanksBelow(e5, Rank(BaseDefense));
    var defense := BaseDefenseCheck(strength, req.baseDefense);
    assert defense == Failed(RangeProblem(req.baseDefense.value));
    assert FieldError(BaseDefense, BudgetExceeded) !in e5;
  }

  /** Two in-range base values summing above 10 are reported by the budget rule, on base defense. */
  lemma BudgetReported(req: CharacterRequest)
    requires req.baseStrength.Some? && req.baseDefense.Some?
    requires 0 <= req.baseStrength.value <= 10 && 0 <= req.baseDefense.value <= 10
    requires req.baseStrength.value + req.baseDefense.value > 10
    ensures ValidateCharacter(req).Failure?
    ensures FieldError(BaseDefense, BudgetExceeded) in ValidateCharacter(req).error
  {
  }
}
